=== FILE: README.md ===
# Discord moderation bot: bookkeeping model

A Dafny model of the in-memory bookkeeping of a Discord moderation bot
(`index.js`). The bot answers slash commands (`addstaff`, `removestaff`,
`liststaff`, `ban`, `kick`, `mute`, `unban`, `warn`, `restore`). It keeps four
process-wide stores:

- the staff-role registry: guild id to a list of role ids;
- the warning store: `${guildId}-${userId}` to an append-only list of warnings;
- the action log: an append-only global list of `{staff, type, user, duration}`;
- the channel backup store: channel id to a snapshot of the channel's name,
  type, parent, position and permission overwrites, with the overwrite
  bitfields kept as decimal text.

Each handler is one pure step, `State × input → State × calls × reply`. Every
chat-platform answer is an input to that step. These answers are: whether a
member was found, whether the bot holds the needed permission, whether a
ban/kick/timeout/unban call went through, which channels are live, and the
outcome of each rollback call. The platform calls a step attempts come back
as a list of `Effect`s.

Modules:

| file | module | models |
|---|---|---|
| `wrappers.dfy` | `Wrappers` | `Option` for JavaScript's `undefined`/`null` |
| `seqs.dfy` | `Seqs` | `indexOf`, `splice(i, 1)`, duplicate freedom |
| `decimal.dfy` | `Decimal` | `BigInt#toString()` and `BigInt(text)` on bitfields |
| `platform.dfy` | `Platform` | ids and the platform calls the bot makes |
| `staff.dfy` | `Staff` | owner / head-staff / staff predicates, staff-role registry |
| `warnings.dfy` | `Warnings` | warning store and its key |
| `actions.dfy` | `ActionLog` | action log, per-staff filter, rollback loop |
| `backups.dfy` | `Backups` | channel snapshots, `restoreChannels` |
| `roleaudit.dfy` | `RoleAudit` | role diff of the member-update handler |
| `bot.dfy` | `Bot` | state, command gates, handlers, channel events |

Behaviour of `index.js` that the model keeps:

- Only `ban`, `kick` and `mute` add entries to the action log. `warn` never does.
- `mute` fetches the member before it checks the 40320-minute bound. So the bound check is not the first platform interaction.
- `restore` must pass the staff gate first (index.js:381-388) and then the owner check (index.js:554). So it requires staff and owner, not owner alone.
- `restoreChannels` has no `try`/`catch`. A failure inside it ends the whole restore. It does not just skip one channel.

## Model

| member | source | states |
|---|---|---|
| `Staff.IsHeadStaff` | index.js:105-111 | the owner is always head staff; anyone else is head staff only if listed in HEAD_STAFF_IDS |
| `Staff.AnyListed` | index.js:118-119 | `roles.some(r => listed.includes(r))` holds iff some role of the member is listed |
| `Staff.IsStaff` | index.js:113-120 | a member is staff iff whitelisted or holding a role registered as staff for its own guild |
| `Staff.NoRolesNoStaff` | index.js:113-120 | with no registered roles for the guild and no whitelist entry, nobody is staff |
| `Staff.AddStaffRole` | index.js:126-134 | returns true iff the role was absent; the role is then listed (appended at the end when new); a false return changes nothing; other guilds are untouched; lists stay duplicate-free |
| `Staff.AddStaffRoleTwice` | index.js:126-134 | a second identical add returns false and changes nothing, and the role occurs exactly once |
| `Staff.RemoveStaffRole` | index.js:136-145 | returns true iff the role was listed; exactly one occurrence is removed (multiset difference); with duplicate-free lists the role is then absent; a false return changes nothing and creates no entry for an unknown guild; other guilds are untouched |
| `Staff.StaffAfterAdd` | index.js:113-134 | after `addStaffRole(g, r)` any member of g holding r is staff |
| `Staff.NotStaffAfterRemove` | index.js:113-145 | after `removeStaffRole(g, r)`, a non-whitelisted member whose other roles (such as @everyone) are not registered for g is no longer staff |
| `Seqs.IndexOf` | index.js:138 | `indexOf` returns -1 iff the element is absent, else the position of its first occurrence |
| `Seqs.RemoveAt` | index.js:140 | `splice(i, 1)` keeps the order of the rest and removes exactly one copy of the element; it keeps a duplicate-free list duplicate-free and leaves that element absent |
| `Warnings.WarningCount` | index.js:606-610 | a key never warned counts 0; otherwise the count is the length of its list |
| `Warnings.AddWarning` | index.js:599-604 | the key's count grows by one, the old list is a prefix of the new one, the new last warning carries the reason and date, and every other key is unchanged |
| `Warnings.KeySplitsAtDash` | index.js:600 | with a digit-only guild id, the first '-' of the key sits right after the guild id |
| `Warnings.KeyInjective` | index.js:600 | for digit-only guild ids, two keys are equal iff both the guild ids and the user ids are equal |
| `Warnings.WarningsIsolated` | index.js:599-610 | warning one (guild, user) leaves every other pair's count unchanged, including the same user in another guild |
| `Warnings.CountMatchesCalls` | index.js:599-610 | starting from an empty store, a key's count equals the number of `addWarning` calls for exactly that guild and user |
| `ActionLog.RecordAction` | index.js:646-648 | appends exactly one entry at the end; earlier entries are untouched |
| `ActionLog.ActionsBy` | index.js:559 | the filter keeps only the given staff member's entries, each taken from the log; it is empty iff that staff member has no entry |
| `ActionLog.ActionsByAppend` | index.js:559 | filtering distributes over concatenation, so the staff member's entries keep their log order |
| `ActionLog.RecordedEntryFiltered` | index.js:646-648 | a recorded entry joins its own staff member's entries at the end, and nobody else's |
| `ActionLog.ReverseOne` | index.js:567-581 | a ban issues `unban(user)`, a mute issues `timeout(null)` on the same user once the member is found, and a kick issues nothing; a ban or mute counts iff its reversing call succeeded (for a mute, after the member was found) |
| `ActionLog.RollbackLoop` | index.js:565-582 | the loop's count and attempted calls equal the entry-by-entry rollback of the staff member's entries in log order |
| `ActionLog.RestoredBound` | index.js:565-582 | `restoredCount` is at most the number of ban entries plus mute entries, and at most the number of reversing calls |
| `ActionLog.AllReversed` | index.js:565-582 | when every call succeeds and every muted member is found, `restoredCount` equals bans plus mutes |
| `Decimal.ToDecimal` | index.js:240-241 | `toString()` on a bitfield yields digits with no leading zero; the text starts with '0' iff the value is 0 |
| `Decimal.ParseDecimal` | index.js:264-265 | `BigInt(text)` succeeds iff the text is all digits |
| `Decimal.ParseToDecimal` | index.js:238-266 | a bitfield parsed back from its decimal text is the same bitfield |
| `Decimal.ToDecimalParse` | index.js:238-266 | canonical decimal text printed back from its value is the same text |
| `Backups.SaveIds` | index.js:233 | `set` on the backup map keeps the order of ids and appends an id only if it was absent |
| `Backups.SaveFind` | index.js:233 | after a save the id maps to the new backup and every other id to its old one |
| `Backups.FindSome` | index.js:233 | a backup is found exactly for the ids in the store |
| `Backups.SaveKeepsInvariants` | index.js:232-245 | saving keeps one entry per id and keeps all stored bitfield text decodable |
| `Backups.Snapshot` | index.js:232-245 | the snapshot has one stored overwrite per live overwrite, all decodable |
| `Backups.SnapshotDecodes` | index.js:238-243 | each stored allow/deny text decodes to exactly the live bitfield |
| `Backups.SnapshotFirstCovers` | index.js:151-154 | once the start-up pass has snapshotted the first n channels, each of them has a backup |
| `Backups.SnapshotAllCovers` | index.js:151-154 | after the start-up pass every visible channel has a backup |
| `Backups.SnapshotFirstKeepsLast` | index.js:151-154 | once the first n channels are snapshotted, a channel that no later one among them shares its id with has exactly its own snapshot stored (each `set` overwrites the previous backup for that id) |
| `Backups.SnapshotAllKeepsLast` | index.js:151-154 | after the start-up pass every channel whose id no later channel repeats has exactly its own snapshot stored |
| `Backups.SnapshotFirstGrows` | index.js:151-154 | the start-up pass keeps every earlier id in its place |
| `Backups.Missing` | index.js:252-254 | a backup id is selected iff the store holds it and it is not among the live channels |
| `Backups.MissingUnique` | index.js:251-254 | with one backup per channel id, no missing channel is selected twice |
| `Backups.ApplyOverwrites` | index.js:262-267 | one overwrite call per stored overwrite; it completes iff all allow/deny text parses; it creates no channel |
| `Backups.Recreate` | index.js:255-267 | recreating a backup issues exactly one create, first, and completes iff the backup's text is decodable |
| `Backups.RestoreChannels` | index.js:251-271 | on a decodable store it completes and creates exactly one channel per backup id absent from the live set, in store order, and none for ids that are live |
| `Backups.RestoreChannelsAsWritten` | index.js:251-271 | as written, the restore stops after the first recreated channel and never completes when a channel is missing |
| `Backups.AsWrittenStopsAfterFirst` | index.js:268 | with two or more missing channels the code as written creates one channel, while the intended restore creates all of them |
| `Backups.AsWrittenAgreesWhenNoneMissing` | index.js:251-271 | with no backed-up channel missing, the restore as written and the intended one are the same run: no call, completed |
| `Backups.TwoDeletedChannels` | index.js:268 | two deleted channels: as written only "1" is recreated; intended: "1" then "2" |
| `Backups.OverwritesRoundTrip` | index.js:238-266 | decoding the stored overwrites reissues every live overwrite with the same principal and the same allow/deny bits |
| `Backups.SnapshotRoundTrip` | index.js:232-267 | snapshot then recreate reproduces name, type, parent, position and every overwrite bit for bit |
| `Backups.RestoreIncludesEntry` | index.js:251-271 | every backup whose channel is gone is recreated by a contiguous run of calls in the restore |
| `Backups.DeletedChannelRestored` | index.js:232-271 | a channel snapshotted on deletion and absent from the live set is recreated exactly as it was by the next restore |
| `RoleAudit.RoleUpdateEntry` | index.js:204-211 | added = new∖old and removed = old∖new; an entry is logged iff the role set changed, and applying the diff to the old set yields the new one |
| `Bot.ReasonOrDefault` | index.js:393 | a missing or empty reason becomes "No reason"; any other reason is kept unchanged |
| `Bot.ManageStaff` | index.js:280-377 | staff management is refused iff the user is not head staff; for head staff, `addstaff`/`removestaff` apply `addStaffRole`/`removeStaffRole` to the issuing guild and report success iff it returned true; `liststaff` changes nothing, reports "no staff roles" iff the guild has none and otherwise lists exactly the guild's roles; only the registry changes, and it stays duplicate-free |
| `Bot.PunishCommand` | index.js:391-504 | an entry is recorded iff the member was found, the bot holds the permission, the call succeeded and (for a mute) the minutes are within 40320; it is then exactly the matching entry; with the member found and the permission held, the call made is `ban`/`kick` with the reason or "No reason", or `timeout` for minutes·60·1000 ms; otherwise no call is made; "user not found" and "too long" are replied exactly in their cases; the success embed is sent iff the entry was recorded, "Bot doesn't have permission" iff the member was found, the mute length passed and the bot lacks the permission, and "Failed to …" iff the bot had the permission and the call failed (index.js:402/418/423 and their kick and mute counterparts) |
| `Bot.UnbanCommand` | index.js:507-526 | unban first attempts the unban call; when it succeeds it goes on to the channel restore, and when it fails it makes no further call and replies failure; it replies success iff both complete, and never changes a store |
| `Bot.RestoreCommand` | index.js:553-595 | restore is refused iff the user is not the owner; it replies "no actions" iff the owner names a staff member with no entries; otherwise it makes the rollback's calls followed by the channel restore's, and reports the rollback's count once the restore completes; it never changes a store |
| `Bot.Moderation` | index.js:380-595 | moderation is refused iff the member is not staff; restore also needs the owner; refused commands change nothing; the log only grows, by at most the one matching entry; only `warn` touches warnings, and an authorized `warn` stores exactly `addWarning(target, guild, reason or "No reason")` |
| `Bot.Handle` | index.js:274-596 | a command that fails its gate changes no store and calls nothing; the action log is append-only; backups are never changed by commands; the staff registry changes only by head-staff management; the store invariants are preserved |
| `Bot.InitialConsistent` | index.js:35-39 | the empty stores the process starts with satisfy the invariant every handler preserves |
| `Bot.OnChannelDelete` | index.js:247-249 | a deleted channel's snapshot is stored under its id, the id order only grows, and the other stores are untouched |
| `Bot.OnReady` | index.js:151-154 | after start-up every visible channel has a backup, and it is that channel's own snapshot whenever no later channel shares its id (Discord ids are unique, so always); ids already stored keep their places and the other stores are untouched |
| `Bot.MuteOverLimitRejected` | index.js:469-476 | a mute over 40320 minutes calls nothing and records nothing |
| `Bot.MuteWithinLimitRecorded` | index.js:474-499 | a mute of at most 40320 minutes that succeeds issues one timeout of minutes·60000 ms and records one `mute` entry with that duration |
| `Bot.RestoreLeavesStores` | index.js:553-595 | `restore` never modifies the log or any other store |
| `Bot.RestoreWithoutEntries` | index.js:558-563 | with no entries for the staff member, `restore` returns before any unban or channel restore |
| `Bot.RestoreReport` | index.js:558-594 | an authorized `restore` with entries reports a count of at most bans plus mutes, and attempts the reversals before the channel restore |
| `Bot.OutsiderCannotBan` | index.js:381-388 | a member neither whitelisted nor holding any role registered as staff for the guild is refused `ban`, and no entry is recorded |
| `Bot.WarnCountsUp` | index.js:529-545 | `warn` reports the new total, one more than before |

## Left out

- The discord.js client, gateway intents and `client.login` (index.js:4-18, 651) are foreign SDK calls.
- Slash-command registration over REST (index.js:42-102, 156-166) is network I/O.
- Embed construction and the three `log*Action` senders (index.js:612-644) are message formatting plus channel fetch and send. Replies are modelled as a `Reply` tag only.
- Join and leave logging (index.js:170-201) is formatting around timestamps and avatar URLs.
- Reading the environment and `process.exit` on a missing token (index.js:20-33) are not modelled. The resulting ids are the `Config` parameter.
- Handlers interleave at `await` points, so duplicate entries can race in. Every handler is modelled as one atomic step.
- `new Date()` in a warning (index.js:602) is an opaque `nat` supplied with the step.
- The platform's answers are inputs (`Env`, `Oracle`): member lookups, `members.me.permissions.has`, and whether ban/kick/timeout/unban/create succeed.
- Inside `restoreChannels`, a rejected `channels.create` or `permissionOverwrites.create` would also end the restore. Only a `BigInt` parse failure is modelled as ending it.
- `isWhitelisted` (index.js:122-124) is never called. The whitelist test inside `IsStaff` covers it.
- `liststaff` output formatting (role names, member counts, the head-staff list) is left out. The reply carries the raw list of role ids.
- `BigInt` also accepts surrounding whitespace, a sign and `0x`/`0o`/`0b` prefixes. `toString()` never produces those, so the model accepts digits only.
- `minutes * 60 * 1000` is computed in double precision in JavaScript. The model uses exact integers. The two agree for every minute count up to the 40320 bound, and for negative counts of magnitude up to 2^53 / 60000.
- Interactions that are not chat-input commands, and unknown command names, are ignored by the handler. They are not modelled.
- Bot.UnbanCommand: uses the corrected `Backups.RestoreChannels`. As written, the undefined `logAction` at index.js:268 throws after the first recreated channel, the `catch` at index.js:523-525 turns that into the "failed to unban" reply, and later missing channels are not recreated; `Backups.RestoreChannelsAsWritten` models that behaviour on its own.
- Bot.RestoreCommand: uses the corrected `Backups.RestoreChannels`. As written, the same `ReferenceError` escapes at index.js:584, so no reply is sent once any channel is recreated and later missing channels are not recreated; `Backups.RestoreChannelsAsWritten` models that behaviour on its own.
- Bot.RestoreReport: concludes a `Restored` reply from the corrected restore. As written it holds only when no backed-up channel is missing (`Backups.AsWrittenAgreesWhenNoneMissing`); otherwise the error from index.js:268 escapes at index.js:584 and no reply is sent.
- The calls to the undefined `logAction` in the handlers (index.js:301, 328, 522, 594) come after the state change, and the model treats them as no-ops. As written, the one at 522 is caught at 523 and leads to a second reply. The ones at 301, 328 and 594 escape the async handler as unhandled rejections. Under Node's default handling (from Node 15 on) that ends the process, so every in-memory store is lost right after a successful `addstaff`, `removestaff` or `restore`. Process termination is not modelled.
- Unhandled promise rejections in the handlers, and what the Node runtime does with them, are not modelled.

## Findings

| source | as written | input that shows it | evidently intended | confidence | as-written member | corrected member |
|---|---|---|---|---|---|---|
| index.js:268 | `restoreChannels` calls `logAction`, which is defined nowhere in index.js. The ReferenceError ends the restore right after the first recreated channel. | Two backed-up channels, both deleted, then `restore` or `unban`: only the first is recreated. | Every backed-up channel missing from the guild is recreated, in store order. | high; not executed | `Backups.RestoreChannelsAsWritten` (exhibited by `Backups.AsWrittenStopsAfterFirst`, `Backups.TwoDeletedChannels`) | `Backups.RestoreChannels` (proved by `Backups.RestoreChannels`' contract and `Backups.DeletedChannelRestored`) |

=== FILE: actions.dfy ===
/** The action log (index.js:646-648) and the rollback loop of the
    `restore` command (index.js:559-582). */
module ActionLog {
  import opened Wrappers
  import opened Platform

  /** The `type` field of a log entry. Only ban, kick and mute are ever
      recorded. */
  datatype ActionKind = Ban | Kick | Mute

  /** `{ staff, type, user, duration }`; `duration` is present on mutes only. */
  datatype Action = Action(staff: Id, kind: ActionKind, user: Id, duration: Option<int>)

  /** What the platform did for one entry during a rollback: whether
      `members.fetch` found the member (read for mutes only) and whether the
      reversing call (`unban` or `timeout(null)`) completed without throwing. */
  datatype Oracle = Oracle(memberFound: bool, callSucceeds: bool)

  /** `restoredCount` and the reversing calls attempted, in order. */
  datatype Rollback = Rollback(restored: nat, effects: seq<Effect>)

  /** `recordAction`: push one entry at the end. */
  function RecordAction(log: seq<Action>, a: Action): (r: seq<Action>)
    ensures |r| == |log| + 1
    ensures log <= r
    ensures r[|log|] == a
  {
    log + [a]
  }

  /** `actionsLog.filter(a => a.staff === staff)` */
  function ActionsBy(log: seq<Action>, staff: Id): (r: seq<Action>)
    ensures |r| <= |log|
    ensures forall i :: 0 <= i < |r| ==> r[i].staff == staff && r[i] in log
    ensures |r| == 0 <==> forall i :: 0 <= i < |log| ==> log[i].staff != staff
    decreases |log|
  {
    if |log| == 0 then []
    else
      var prefix := log[..|log| - 1];
      var last := log[|log| - 1];
      assert forall i :: 0 <= i < |prefix| ==> prefix[i] == log[i];
      if last.staff == staff then ActionsBy(prefix, staff) + [last] else ActionsBy(prefix, staff)
  }

  /** Filtering distributes over concatenation: the entries of one staff
      member keep their log order. */
  lemma {:induction false} ActionsByAppend(a: seq<Action>, b: seq<Action>, staff: Id)
    ensures ActionsBy(a + b, staff) == ActionsBy(a, staff) + ActionsBy(b, staff)
    decreases |b|
  {
    if |b| == 0 {
      assert a + b == a;
    } else {
      assert (a + b)[..|a + b| - 1] == a + b[..|b| - 1];
      ActionsByAppend(a, b[..|b| - 1], staff);
    }
  }

  /** Recording an entry adds it to its own staff member's entries, at the
      end, and to nobody else's. */
  lemma RecordedEntryFiltered(log: seq<Action>, a: Action, staff: Id)
    ensures ActionsBy(RecordAction(log, a), staff)
            == ActionsBy(log, staff) + (if a.staff == staff then [a] else [])
  {
    ActionsByAppend(log, [a], staff);
    assert ActionsBy([a], staff) == ActionsBy([], staff) + (if a.staff == staff then [a] else []);
  }

  function CountKind(acts: seq<Action>, kind: ActionKind): nat
    decreases |acts|
  {
    if |acts| == 0 then 0
    else CountKind(acts[..|acts| - 1], kind) + (if acts[|acts| - 1].kind == kind then 1 else 0)
  }

  /** The oracle for entry `i`; a missing one is a failed call. */
  function OracleAt(oracle: seq<Oracle>, i: nat): Oracle {
    if i < |oracle| then oracle[i] else Oracle(false, false)
  }

  /** One iteration of the rollback loop: a ban is reversed by `unban`, a
      mute by `timeout(null)` once the member is found, a kick not at all. */
  function ReverseOne(a: Action, o: Oracle): (r: Rollback)
    ensures r.restored <= |r.effects| <= 1
    ensures a.kind == Kick ==> r == Rollback(0, [])
    ensures r.restored == 1 <==> a.kind != Kick && o.callSucceeds && (a.kind == Mute ==> o.memberFound)
    ensures a.kind == Ban ==> r.effects == [UnbanCall(a.user)]
    ensures a.kind == Mute ==> r.effects == if o.memberFound then [ClearTimeoutCall(a.user)] else []
  {
    match a.kind
    case Ban => Rollback(if o.callSucceeds then 1 else 0, [UnbanCall(a.user)])
    case Mute =>
      if o.memberFound then Rollback(if o.callSucceeds then 1 else 0, [ClearTimeoutCall(a.user)])
      else Rollback(0, [])
    case Kick => Rollback(0, [])
  }

  /** The rollback of a staff member's entries, entry `i` meeting oracle `i`. */
  function Reverted(acts: seq<Action>, oracle: seq<Oracle>): Rollback
    decreases |acts|
  {
    if |acts| == 0 then Rollback(0, [])
    else
      var prev := Reverted(acts[..|acts| - 1], oracle);
      var step := ReverseOne(acts[|acts| - 1], OracleAt(oracle, |acts| - 1));
      Rollback(prev.restored + step.restored, prev.effects + step.effects)
  }

  /** The loop of the `restore` handler over the staff member's entries. */
  method RollbackLoop(acts: seq<Action>, oracle: seq<Oracle>) returns (restored: nat, effects: seq<Effect>)
    ensures Rollback(restored, effects) == Reverted(acts, oracle)
  {
    restored := 0;
    effects := [];
    var i := 0;
    while i < |acts|
      invariant 0 <= i <= |acts|
      invariant Rollback(restored, effects) == Reverted(acts[..i], oracle)
    {
      var act := acts[i];
      var o := OracleAt(oracle, i);
      if act.kind == Ban {
        effects := effects + [UnbanCall(act.user)];
        if o.callSucceeds {
          restored := restored + 1;
        }
      }
      if act.kind == Mute {
        if o.memberFound {
          effects := effects + [ClearTimeoutCall(act.user)];
          if o.callSucceeds {
            restored := restored + 1;
          }
        }
      }
      assert acts[..i + 1][..i] == acts[..i];
      i := i + 1;
    }
    assert acts[..i] == acts;
  }

  /** Kicks are never reversed, so the count is at most the number of bans
      plus mutes, and each counted reversal made a call. */
  lemma {:induction false} RestoredBound(acts: seq<Action>, oracle: seq<Oracle>)
    ensures Reverted(acts, oracle).restored <= CountKind(acts, Ban) + CountKind(acts, Mute)
    ensures Reverted(acts, oracle).restored <= |Reverted(acts, oracle).effects| <= |acts|
    decreases |acts|
  {
    if |acts| > 0 {
      RestoredBound(acts[..|acts| - 1], oracle);
    }
  }

  /** When every call succeeds and every muted member is found, every ban
      and every mute is reversed. */
  lemma {:induction false} AllReversed(acts: seq<Action>, oracle: seq<Oracle>)
    requires forall i :: 0 <= i < |acts| ==> OracleAt(oracle, i) == Oracle(true, true)
    ensures Reverted(acts, oracle).restored == CountKind(acts, Ban) + CountKind(acts, Mute)
    decreases |acts|
  {
    if |acts| > 0 {
      AllReversed(acts[..|acts| - 1], oracle);
    }
  }
}

=== FILE: backups.dfy ===
/** The channel backup store (index.js:232-245) and `restoreChannels`
    (index.js:251-271). The store is a JavaScript Map: `set` on a known id
    replaces its value in place, a new id goes to the end, and iteration
    follows that order. It is modelled as a sequence of entries. */
module Backups {
  import opened Wrappers
  import opened Seqs
  import opened Decimal
  import opened Platform

  /** A live permission overwrite; the bitfields are BigInts. */
  datatype Overwrite = Overwrite(principal: Id, allow: nat, deny: nat, principalKind: nat)

  /** The attributes of a live channel that a snapshot reads. */
  datatype Channel = Channel(id: Id, name: string, kind: nat, parent: Option<Id>, position: int,
                             overwrites: seq<Overwrite>)

  /** A stored overwrite: the bitfields as decimal text. */
  datatype StoredOverwrite = StoredOverwrite(principal: Id, allow: string, deny: string, principalKind: nat)

  datatype ChannelBackup = ChannelBackup(name: string, kind: nat, parent: Option<Id>, position: int,
                                         overwrites: seq<StoredOverwrite>)

  datatype Entry = Entry(id: Id, backup: ChannelBackup)

  type BackupStore = seq<Entry>

  /** The calls a restore attempted, and whether it ran to the end rather
      than stopping at an exception. */
  datatype RestoreRun = RestoreRun(effects: seq<Effect>, completed: bool)

  function Ids(store: BackupStore): (r: seq<Id>)
    ensures |r| == |store|
    ensures forall k {:trigger r[k]} :: 0 <= k < |store| ==> r[k] == store[k].id
  {
    seq(|store|, k requires 0 <= k < |store| => store[k].id)
  }

  /** Every stored bitfield text is something `BigInt` accepts. */
  predicate Decodable(b: ChannelBackup) {
    forall j :: 0 <= j < |b.overwrites| ==> AllDigits(b.overwrites[j].allow) && AllDigits(b.overwrites[j].deny)
  }

  ghost predicate Parseable(store: BackupStore) {
    forall k :: 0 <= k < |store| ==> Decodable(store[k].backup)
  }

  /** One entry per channel id. */
  ghost predicate UniqueIds(store: BackupStore) {
    NoDuplicates(Ids(store))
  }

  /** `channelBackups.get(id)` */
  function Find(store: BackupStore, id: Id): Option<ChannelBackup>
    decreases |store|
  {
    if |store| == 0 then None
    else if store[0].id == id then Some(store[0].backup)
    else Find(store[1..], id)
  }

  /** A backup is found exactly for the ids the store holds. */
  lemma {:induction false} FindSome(store: BackupStore, id: Id)
    ensures Find(store, id).Some? <==> id in Ids(store)
    decreases |store|
  {
    if |store| > 0 {
      FindSome(store[1..], id);
      assert Ids(store) == [store[0].id] + Ids(store[1..]);
    }
  }

  /** What `Find` returns is stored under that id. */
  lemma {:induction false} FindEntry(store: BackupStore, id: Id)
    requires Find(store, id).Some?
    ensures exists k :: 0 <= k < |store| && store[k] == Entry(id, Find(store, id).value)
    decreases |store|
  {
    if store[0].id != id {
      FindEntry(store[1..], id);
      var k :| 0 <= k < |store[1..]| && store[1..][k] == Entry(id, Find(store, id).value);
      assert store[k + 1] == store[1..][k];
    }
  }

  /** `channelBackups.set(id, b)`: the order of ids changes only by
      appending an id the store did not hold. */
  function Save(store: BackupStore, id: Id, b: ChannelBackup): BackupStore
    decreases |store|
  {
    if |store| == 0 then [Entry(id, b)]
    else if store[0].id == id then [Entry(id, b)] + store[1..]
    else [store[0]] + Save(store[1..], id, b)
  }

  /** `set` on the backup map keeps the order of ids and appends an id only
      if it was absent. */
  lemma {:induction false} SaveIds(store: BackupStore, id: Id, b: ChannelBackup)
    ensures Ids(Save(store, id, b)) == if id in Ids(store) then Ids(store) else Ids(store) + [id]
    decreases |store|
  {
    if |store| > 0 {
      IdsCons(store);
      if store[0].id == id {
        IdsCons(Save(store, id, b));
        assert Save(store, id, b)[1..] == store[1..];
      } else {
        SaveIds(store[1..], id, b);
        IdsCons(Save(store, id, b));
        assert Save(store, id, b)[1..] == Save(store[1..], id, b);
      }
    }
  }

  lemma IdsCons(store: BackupStore)
    requires |store| > 0
    ensures Ids(store) == [store[0].id] + Ids(store[1..])
  {
    assert Ids(store)[1..] == Ids(store[1..]);
  }

  /** After saving, `id` maps to the new backup and every other id keeps its
      old one. */
  lemma {:induction false} SaveFind(store: BackupStore, id: Id, b: ChannelBackup, other: Id)
    ensures Find(Save(store, id, b), id) == Some(b)
    ensures other != id ==> Find(Save(store, id, b), other) == Find(store, other)
    decreases |store|
  {
    if |store| > 0 && store[0].id != id {
      SaveFind(store[1..], id, b, other);
      assert Save(store, id, b)[1..] == Save(store[1..], id, b);
    } else if |store| > 0 {
      assert Save(store, id, b)[1..] == store[1..];
    }
  }

  /** Saving keeps one entry per id and only ever stores decodable text. */
  lemma SaveKeepsInvariants(store: BackupStore, id: Id, b: ChannelBackup)
    ensures UniqueIds(store) ==> UniqueIds(Save(store, id, b))
    ensures Parseable(store) && Decodable(b) ==> Parseable(Save(store, id, b))
  {
    SaveIds(store, id, b);
    if id !in Ids(store) && UniqueIds(store) {
      AppendFresh(Ids(store), id);
    }
    if Parseable(store) && Decodable(b) {
      SaveParseable(store, id, b);
    }
  }

  lemma {:induction false} SaveParseable(store: BackupStore, id: Id, b: ChannelBackup)
    requires Parseable(store) && Decodable(b)
    ensures Parseable(Save(store, id, b))
    decreases |store|
  {
    if |store| > 0 && store[0].id != id {
      SaveParseable(store[1..], id, b);
    }
  }

  /** The stored form of a live overwrite list: bitfields via `toString()`. */
  function StoreOverwrites(ows: seq<Overwrite>): (r: seq<StoredOverwrite>)
    ensures |r| == |ows|
    ensures forall j :: 0 <= j < |ows| ==>
              r[j] == StoredOverwrite(ows[j].principal, ToDecimal(ows[j].allow), ToDecimal(ows[j].deny), ows[j].principalKind)
  {
    seq(|ows|, j requires 0 <= j < |ows| =>
      StoredOverwrite(ows[j].principal, ToDecimal(ows[j].allow), ToDecimal(ows[j].deny), ows[j].principalKind))
  }

  /** The backup `saveChannelBackup` builds from a live channel. */
  function Snapshot(ch: Channel): (b: ChannelBackup)
    ensures Decodable(b)
    ensures |b.overwrites| == |ch.overwrites|
  {
    ChannelBackup(ch.name, ch.kind, ch.parent, ch.position, StoreOverwrites(ch.overwrites))
  }

  /** Each stored bitfield decodes to exactly the live one. */
  lemma SnapshotDecodes(ch: Channel)
    ensures forall j :: 0 <= j < |ch.overwrites| ==>
              ParseDecimal(Snapshot(ch).overwrites[j].allow) == Some(ch.overwrites[j].allow)
              && ParseDecimal(Snapshot(ch).overwrites[j].deny) == Some(ch.overwrites[j].deny)
  {
    forall j | 0 <= j < |ch.overwrites|
      ensures ParseDecimal(ToDecimal(ch.overwrites[j].allow)) == Some(ch.overwrites[j].allow)
      ensures ParseDecimal(ToDecimal(ch.overwrites[j].deny)) == Some(ch.overwrites[j].deny)
    {
      ParseToDecimal(ch.overwrites[j].allow);
      ParseToDecimal(ch.overwrites[j].deny);
    }
  }

  /** `saveChannelBackup(channel)` */
  function SaveChannelBackup(store: BackupStore, ch: Channel): BackupStore {
    Save(store, ch.id, Snapshot(ch))
  }

  /** Snapshot the first `n` channels in turn, as the start-up pass does;
      ids already stored keep their place. */
  function SnapshotFirst(store: BackupStore, channels: seq<Channel>, n: nat): BackupStore
    requires n <= |channels|
    decreases n
  {
    if n == 0 then store
    else
      var ch := channels[n - 1];
      Save(SnapshotFirst(store, channels, n - 1), ch.id, Snapshot(ch))
  }

  /** The start-up pass over every visible channel. */
  function SnapshotAll(store: BackupStore, channels: seq<Channel>): BackupStore {
    SnapshotFirst(store, channels, |channels|)
  }

  /** After snapshotting the first `n` channels, the `i`-th has a backup. */
  lemma {:induction false} SnapshotFirstCovers(store: BackupStore, channels: seq<Channel>, n: nat, i: nat)
    requires i < n <= |channels|
    ensures Find(SnapshotFirst(store, channels, n), channels[i].id).Some?
    decreases n
  {
    if i < n - 1 {
      SnapshotFirstCovers(store, channels, n - 1, i);
    }
    SaveCovers(SnapshotFirst(store, channels, n - 1), channels[n - 1], channels[i].id);
  }

  /** After snapshotting the first `n` channels, a channel that no later one
      among them shares its id with has its own snapshot stored. */
  lemma {:induction false} SnapshotFirstKeepsLast(store: BackupStore, channels: seq<Channel>, n: nat, i: nat)
    requires i < n <= |channels|
    requires forall j :: i < j < n ==> channels[j].id != channels[i].id
    ensures Find(SnapshotFirst(store, channels, n), channels[i].id) == Some(Snapshot(channels[i]))
    decreases n
  {
    var ch := channels[n - 1];
    if i < n - 1 {
      SnapshotFirstKeepsLast(store, channels, n - 1, i);
      assert ch.id != channels[i].id;
    }
    SaveFind(SnapshotFirst(store, channels, n - 1), ch.id, Snapshot(ch), channels[i].id);
  }

  /** After start-up, every channel whose id no later channel repeats has
      its own snapshot stored. */
  lemma SnapshotAllKeepsLast(store: BackupStore, channels: seq<Channel>)
    ensures forall i :: 0 <= i < |channels| && (forall j :: i < j < |channels| ==> channels[j].id != channels[i].id) ==>
              Find(SnapshotAll(store, channels), channels[i].id) == Some(Snapshot(channels[i]))
  {
    forall i | 0 <= i < |channels| && (forall j :: i < j < |channels| ==> channels[j].id != channels[i].id)
      ensures Find(SnapshotAll(store, channels), channels[i].id) == Some(Snapshot(channels[i]))
    {
      SnapshotFirstKeepsLast(store, channels, |channels|, i);
    }
  }

  /** Saving a channel's snapshot keeps every stored id and adds the channel's. */
  lemma SaveCovers(store: BackupStore, ch: Channel, x: Id)
    requires x == ch.id || Find(store, x).Some?
    ensures Find(Save(store, ch.id, Snapshot(ch)), x).Some?
  {
    SaveFind(store, ch.id, Snapshot(ch), x);
  }

  /** After the start-up pass, every visible channel has a backup. */
  lemma SnapshotAllCovers(store: BackupStore, channels: seq<Channel>)
    ensures forall i :: 0 <= i < |channels| ==> Find(SnapshotAll(store, channels), channels[i].id).Some?
  {
    forall i | 0 <= i < |channels|
      ensures Find(SnapshotAll(store, channels), channels[i].id).Some?
    {
      SnapshotFirstCovers(store, channels, |channels|, i);
    }
  }

  /** The start-up pass keeps every stored id in its place. */
  lemma {:induction false} SnapshotFirstGrows(store: BackupStore, channels: seq<Channel>, n: nat)
    requires n <= |channels|
    ensures Ids(store) <= Ids(SnapshotFirst(store, channels, n))
    decreases n
  {
    if n > 0 {
      var before := SnapshotFirst(store, channels, n - 1);
      var ch := channels[n - 1];
      SnapshotFirstGrows(store, channels, n - 1);
      SaveGrows(before, ch.id, Snapshot(ch));
      PrefixTrans(Ids(store), Ids(before), Ids(Save(before, ch.id, Snapshot(ch))));
    }
  }

  /** Saving never moves or drops a stored id. */
  lemma SaveGrows(store: BackupStore, id: Id, b: ChannelBackup)
    ensures Ids(store) <= Ids(Save(store, id, b))
  {
    SaveIds(store, id, b);
  }

  lemma PrefixTrans<T>(a: seq<T>, b: seq<T>, c: seq<T>)
    requires a <= b && b <= c
    ensures a <= c
  {
  }

  lemma {:induction false} SnapshotFirstKeepsInvariants(store: BackupStore, channels: seq<Channel>, n: nat)
    requires n <= |channels|
    ensures UniqueIds(store) ==> UniqueIds(SnapshotFirst(store, channels, n))
    ensures Parseable(store) ==> Parseable(SnapshotFirst(store, channels, n))
    decreases n
  {
    if n > 0 {
      SnapshotFirstKeepsInvariants(store, channels, n - 1);
      var ch := channels[n - 1];
      SaveKeepsInvariants(SnapshotFirst(store, channels, n - 1), ch.id, Snapshot(ch));
    }
  }

  /** The ids of recreated channels, in the order they were created. */
  function Created(effects: seq<Effect>): seq<Id>
    decreases |effects|
  {
    if |effects| == 0 then []
    else (if effects[0].CreateChannelCall? then [effects[0].restoredFrom] else []) + Created(effects[1..])
  }

  lemma {:induction false} CreatedAppend(a: seq<Effect>, b: seq<Effect>)
    ensures Created(a + b) == Created(a) + Created(b)
    decreases |a|
  {
    if |a| == 0 {
      assert a + b == b;
    } else {
      assert (a + b)[1..] == a[1..] + b;
      CreatedAppend(a[1..], b);
    }
  }

  /** The ids of the backups whose channel is gone, in store order. */
  function Missing(store: BackupStore, live: set<Id>): (r: seq<Id>)
    ensures forall x :: x in r <==> x in Ids(store) && x !in live
    decreases |store|
  {
    if |store| == 0 then []
    else
      IdsCons(store);
      (if store[0].id in live then [] else [store[0].id]) + Missing(store[1..], live)
  }

  /** With one backup per channel id, no channel is selected twice. */
  lemma {:induction false} MissingUnique(store: BackupStore, live: set<Id>)
    requires UniqueIds(store)
    ensures NoDuplicates(Missing(store, live))
    decreases |store|
  {
    if |store| > 0 {
      IdsCons(store);
      assert Ids(store[1..]) == Ids(store)[1..];
      MissingUnique(store[1..], live);
    }
  }

  /** The inner loop: one `permissionOverwrites.create` per stored
      overwrite, with both bitfields parsed by `BigInt` first. Text `BigInt`
      rejects throws and ends the restore. */
  function ApplyOverwrites(ows: seq<StoredOverwrite>): (r: RestoreRun)
    ensures r.completed <==> forall j :: 0 <= j < |ows| ==> AllDigits(ows[j].allow) && AllDigits(ows[j].deny)
    ensures |r.effects| <= |ows|
    ensures r.completed ==> |r.effects| == |ows|
    ensures Created(r.effects) == []
    decreases |ows|
  {
    if |ows| == 0 then RestoreRun([], true)
    else
      var po := ows[0];
      match (ParseDecimal(po.allow), ParseDecimal(po.deny))
      case (Some(allow), Some(deny)) =>
        var rest := ApplyOverwrites(ows[1..]);
        var call := OverwriteCall(po.principal, allow, deny);
        assert ([call] + rest.effects)[1..] == rest.effects;
        assert forall j :: 1 <= j < |ows| ==> ows[j] == ows[1..][j - 1];
        RestoreRun([call] + rest.effects, rest.completed)
      case _ => RestoreRun([], false)
  }

  /** Recreate one backed-up channel and re-apply its overwrites. */
  function Recreate(id: Id, b: ChannelBackup): (r: RestoreRun)
    ensures r.completed <==> Decodable(b)
    ensures |r.effects| > 0 && r.effects[0] == CreateChannelCall(id, b.name, b.kind, b.parent, b.position)
    ensures Created(r.effects) == [id]
  {
    var rest := ApplyOverwrites(b.overwrites);
    var create := CreateChannelCall(id, b.name, b.kind, b.parent, b.position);
    assert ([create] + rest.effects)[1..] == rest.effects;
    RestoreRun([create] + rest.effects, rest.completed)
  }

  /** `restoreChannels`, with `logAction` a logging no-op: every backup whose
      id is not among the guild's live channels is recreated, in store order;
      backups of live channels are skipped. */
  function RestoreChannels(store: BackupStore, live: set<Id>): (r: RestoreRun)
    ensures Parseable(store) ==> r.completed
    ensures r.completed ==> Created(r.effects) == Missing(store, live)
    decreases |store|
  {
    if |store| == 0 then RestoreRun([], true)
    else
      var head := if store[0].id in live then RestoreRun([], true) else Recreate(store[0].id, store[0].backup);
      if !head.completed then head
      else
        var rest := RestoreChannels(store[1..], live);
        CreatedAppend(head.effects, rest.effects);
        RestoreRun(head.effects + rest.effects, rest.completed)
  }

  /** `restoreChannels` as written: `logAction` is not defined anywhere in
      index.js, so the call after the first recreated channel throws a
      ReferenceError and ends the restore there. */
  function RestoreChannelsAsWritten(store: BackupStore, live: set<Id>): (r: RestoreRun)
    ensures |Missing(store, live)| == 0 ==> r == RestoreRun([], true)
    ensures |Missing(store, live)| > 0 ==> !r.completed && Created(r.effects) == [Missing(store, live)[0]]
    decreases |store|
  {
    if |store| == 0 then RestoreRun([], true)
    else if store[0].id in live then RestoreChannelsAsWritten(store[1..], live)
    else RestoreRun(Recreate(store[0].id, store[0].backup).effects, false)
  }

  /** The discrepancy: with two or more channels to recreate, the code as
      written recreates only the first, where the intended restore recreates
      all of them. */
  lemma AsWrittenStopsAfterFirst(store: BackupStore, live: set<Id>)
    requires Parseable(store)
    requires |Missing(store, live)| >= 2
    ensures |Created(RestoreChannelsAsWritten(store, live).effects)| == 1
    ensures |Created(RestoreChannels(store, live).effects)| == |Missing(store, live)|
  {
  }

  /** With no backed-up channel missing, the code as written and the
      intended restore agree: neither recreates anything and both complete. */
  lemma {:induction false} AsWrittenAgreesWhenNoneMissing(store: BackupStore, live: set<Id>)
    requires Missing(store, live) == []
    ensures RestoreChannelsAsWritten(store, live) == RestoreChannels(store, live)
    decreases |store|
  {
    if |store| > 0 {
      assert store[0].id in live;
      assert Missing(store[1..], live) == [];
      AsWrittenAgreesWhenNoneMissing(store[1..], live);
      assert [] + RestoreChannels(store[1..], live).effects == RestoreChannels(store[1..], live).effects;
    }
  }

  /** The smallest input that shows the discrepancy: two backed-up channels,
      both deleted. */
  lemma TwoDeletedChannels()
    ensures var b := ChannelBackup("general", 0, None, 0, []);
            var store := [Entry("1", b), Entry("2", b)];
            && Created(RestoreChannelsAsWritten(store, {}).effects) == ["1"]
            && Created(RestoreChannels(store, {}).effects) == ["1", "2"]
  {
    var b := ChannelBackup("general", 0, None, 0, []);
    var store := [Entry("1", b), Entry("2", b)];
    assert store[1..] == [Entry("2", b)];
    assert store[1..][1..] == [];
    assert Missing(store[1..], {}) == ["2"];
    assert Missing(store, {}) == ["1", "2"];
  }

  /** The calls that recreate a live channel exactly as it was. */
  function Rebuild(ch: Channel): seq<Effect> {
    [CreateChannelCall(ch.id, ch.name, ch.kind, ch.parent, ch.position)]
      + seq(|ch.overwrites|, j requires 0 <= j < |ch.overwrites| =>
              OverwriteCall(ch.overwrites[j].principal, ch.overwrites[j].allow, ch.overwrites[j].deny))
  }

  /** Decoding stored overwrites reproduces every live bitfield. */
  lemma {:induction false} OverwritesRoundTrip(ows: seq<Overwrite>)
    ensures ApplyOverwrites(StoreOverwrites(ows)).completed
    ensures ApplyOverwrites(StoreOverwrites(ows)).effects
            == seq(|ows|, j requires 0 <= j < |ows| => OverwriteCall(ows[j].principal, ows[j].allow, ows[j].deny))
    decreases |ows|
  {
    if |ows| > 0 {
      ParseToDecimal(ows[0].allow);
      ParseToDecimal(ows[0].deny);
      assert StoreOverwrites(ows)[1..] == StoreOverwrites(ows[1..]);
      OverwritesRoundTrip(ows[1..]);
    }
  }

  /** Snapshot then recreate: the same name, type, parent, position and
      overwrites, bit for bit. */
  lemma SnapshotRoundTrip(ch: Channel)
    ensures Recreate(ch.id, Snapshot(ch)) == RestoreRun(Rebuild(ch), true)
  {
    OverwritesRoundTrip(ch.overwrites);
  }

  function Window(r: seq<Effect>, i: nat, n: nat): seq<Effect>
    requires i + n <= |r|
  {
    r[i..i + n]
  }

  /** `calls` occurs as a contiguous run inside `r`. */
  ghost predicate Occurs(calls: seq<Effect>, r: seq<Effect>) {
    exists i: nat :: i + |calls| <= |r| && Window(r, i, |calls|) == calls
  }

  /** A run inside `b` is a run inside `a + b`. */
  lemma OccursAfter(calls: seq<Effect>, a: seq<Effect>, b: seq<Effect>)
    requires Occurs(calls, b)
    ensures Occurs(calls, a + b)
  {
    var i: nat :| i + |calls| <= |b| && Window(b, i, |calls|) == calls;
    assert Window(a + b, |a| + i, |calls|) == Window(b, i, |calls|);
  }

  /** The first entry's calls come first, then the rest of the store's. */
  lemma RestoreUnfold(store: BackupStore, live: set<Id>)
    requires Parseable(store) && |store| > 0
    ensures var head := if store[0].id in live then [] else Recreate(store[0].id, store[0].backup).effects;
            RestoreChannels(store, live).effects == head + RestoreChannels(store[1..], live).effects
  {
  }

  /** A run that starts a sequence occurs in it. */
  lemma OccursFirst(calls: seq<Effect>, b: seq<Effect>)
    ensures Occurs(calls, calls + b)
  {
    assert Window(calls + b, 0, |calls|) == calls;
  }

  lemma ParseableTail(store: BackupStore)
    requires Parseable(store) && |store| > 0
    ensures Parseable(store[1..])
  {
    forall k | 0 <= k < |store| - 1
      ensures Decodable(store[1..][k].backup)
    {
      assert store[1..][k] == store[k + 1];
    }
  }

  /** A backup whose channel is gone is recreated by a contiguous run of
      calls in the restore. */
  lemma {:induction false} RestoreIncludesEntry(store: BackupStore, live: set<Id>, k: nat)
    requires Parseable(store)
    requires k < |store| && store[k].id !in live
    ensures Occurs(Recreate(store[k].id, store[k].backup).effects, RestoreChannels(store, live).effects)
    decreases |store|
  {
    RestoreUnfold(store, live);
    if k == 0 {
      OccursFirst(Recreate(store[0].id, store[0].backup).effects, RestoreChannels(store[1..], live).effects);
    } else {
      RestoreIncludesLater(store, live, k);
    }
  }

  /** The inductive step of `RestoreIncludesEntry`: an entry after the
      first is found in the rest of the store's calls. */
  lemma {:induction false} RestoreIncludesLater(store: BackupStore, live: set<Id>, k: nat)
    requires Parseable(store)
    requires 0 < k < |store| && store[k].id !in live
    ensures Occurs(Recreate(store[k].id, store[k].backup).effects, RestoreChannels(store, live).effects)
    decreases |store|, 0
  {
    var head := if store[0].id in live then [] else Recreate(store[0].id, store[0].backup).effects;
    var rest := RestoreChannels(store[1..], live).effects;
    RestoreUnfold(store, live);
    ParseableTail(store);
    assert store[1..][k - 1] == store[k];
    RestoreIncludesEntry(store[1..], live, k - 1);
    OccursAfter(Recreate(store[k].id, store[k].backup).effects, head, rest);
  }

  /** A channel snapshotted on deletion and absent from the live set is
      recreated by the next restore exactly as it was snapshotted. */
  lemma DeletedChannelRestored(store: BackupStore, ch: Channel, live: set<Id>)
    requires Parseable(store)
    requires ch.id !in live
    ensures var r := RestoreChannels(SaveChannelBackup(store, ch), live);
            && r.completed
            && Occurs(Rebuild(ch), r.effects)
  {
    var store' := SaveChannelBackup(store, ch);
    SaveKeepsInvariants(store, ch.id, Snapshot(ch));
    SaveFind(store, ch.id, Snapshot(ch), ch.id);
    FindEntry(store', ch.id);
    var k :| 0 <= k < |store'| && store'[k] == Entry(ch.id, Snapshot(ch));
    RestoreIncludesEntry(store', live, k);
    SnapshotRoundTrip(ch);
  }
}

=== FILE: bot.dfy ===
/** The bot's state and its handlers (index.js:35-39, 247-249, 274-596):
    each slash command and each channel event is one step from a state to
    a state, together with the platform calls it attempted and the reply it
    sent. Platform outcomes are inputs. */
module Bot {
  import opened Wrappers
  import opened Platform
  import opened Staff
  import opened Warnings
  import opened ActionLog
  import opened Backups

  /** Discord's longest timeout, 28 days, in minutes. */
  const MaxMuteMinutes: int := 40320

  const MillisPerMinute: int := 60 * 1000

  /** The four in-memory stores. */
  datatype State = State(staffRoles: StaffRoles, warnings: WarningStore, actions: seq<Action>, backups: BackupStore)

  /** The stores as the process starts: all empty. */
  const Initial: State := State(map[], map[], [], [])

  /** What every step keeps: staff-role lists without duplicates, one backup
      per channel id, and backup text that `BigInt` accepts. */
  ghost predicate Consistent(s: State) {
    Staff.Valid(s.staffRoles) && UniqueIds(s.backups) && Parseable(s.backups)
  }

  datatype StaffCommand = AddStaff(role: Id) | RemoveStaff(role: Id) | ListStaff

  datatype ModCommand =
    | BanUser(target: Id, reason: Option<string>)
    | KickUser(target: Id, reason: Option<string>)
    | MuteUser(target: Id, minutes: int)
    | UnbanUser(userId: Id)
    | WarnUser(target: Id, reason: Option<string>)
    | RestoreStaff(staff: Id)

  datatype Command = Manage(staffCmd: StaffCommand) | Moderate(modCmd: ModCommand)

  /** A slash command: the guild it was issued in, the issuing user and that
      member's role ids, and the command with its options. */
  datatype Interaction = Interaction(guild: Id, user: Id, roles: seq<Id>, command: Command)

  /** The platform's answers for one step: whether `members.fetch` found the
      target, whether the bot itself holds the needed permission, whether
      the ban/kick/timeout/unban call completed, the ids of the guild's live
      channels, the outcomes of the rollback's calls in order, and the
      current instant. */
  datatype Env = Env(memberFound: bool, botMayAct: bool, callSucceeds: bool,
                     liveChannels: set<Id>, reversals: seq<Oracle>, now: nat)

  datatype Reply =
    | Denied | OwnerOnly
    | StaffRoleAdded | AlreadyStaffRole | StaffRoleRemoved | NotStaffRole
    | NoStaffRoles | StaffList(roles: seq<Id>)
    | UserNotFound | MuteTooLong | BotLacksPermission | ActionFailed | Done
    | Unbanned | Warned(total: nat) | NoActionsFound | Restored(count: nat)
    | NoReply  // the handler threw before replying

  datatype Step = Step(state: State, effects: seq<Effect>, reply: Reply)

  function MemberOf(it: Interaction): Member {
    Member(it.user, it.guild, it.roles)
  }

  /** `getString("reason") || "No reason"`: a missing or empty reason. */
  function ReasonOrDefault(reason: Option<string>): (r: string)
    ensures r != ""
    ensures reason.Some? && reason.value != "" ==> r == reason.value
    ensures reason.None? || reason.value == "" ==> r == "No reason"
  {
    if reason.Some? && reason.value != "" then reason.value else "No reason"
  }

  /** Who may run what: staff management needs head staff; every moderation
      command needs staff, and `restore` needs the owner as well. */
  predicate Authorized(cfg: Config, reg: StaffRoles, it: Interaction) {
    match it.command
    case Manage(_) => IsHeadStaff(cfg, it.user)
    case Moderate(m) => IsStaff(cfg, reg, MemberOf(it)) && (m.RestoreStaff? ==> IsOwner(cfg, it.user))
  }

  /** The entry a successful ban, kick or mute records; no other command
      records one. */
  predicate Records(it: Interaction, a: Action) {
    match it.command
    case Moderate(BanUser(t, _)) => a == Action(it.user, Ban, t, None)
    case Moderate(KickUser(t, _)) => a == Action(it.user, Kick, t, None)
    case Moderate(MuteUser(t, m)) => m <= MaxMuteMinutes && a == Action(it.user, Mute, t, Some(m * MillisPerMinute))
    case _ => false
  }

  /** `addstaff`, `removestaff` and `liststaff`, behind the head-staff gate. */
  function ManageStaff(cfg: Config, s: State, it: Interaction, c: StaffCommand): (r: Step)
    ensures r.reply == Denied <==> !IsHeadStaff(cfg, it.user)
    ensures !IsHeadStaff(cfg, it.user) ==> r.state == s
    ensures r.effects == []
    ensures r.state == s.(staffRoles := r.state.staffRoles)
    ensures Staff.Valid(s.staffRoles) ==> Staff.Valid(r.state.staffRoles)
    ensures IsHeadStaff(cfg, it.user) && c.AddStaff? ==>
              var u := AddStaffRole(s.staffRoles, it.guild, c.role);
              r.state.staffRoles == u.roles && (r.reply == StaffRoleAdded <==> u.changed)
    ensures IsHeadStaff(cfg, it.user) && c.RemoveStaff? ==>
              var u := RemoveStaffRole(s.staffRoles, it.guild, c.role);
              r.state.staffRoles == u.roles && (r.reply == StaffRoleRemoved <==> u.changed)
    ensures c.ListStaff? ==> r.state == s
    ensures IsHeadStaff(cfg, it.user) && c.ListStaff? ==>
              (r.reply == NoStaffRoles <==> RolesOf(s.staffRoles, it.guild) == [])
    ensures IsHeadStaff(cfg, it.user) && c.ListStaff? && RolesOf(s.staffRoles, it.guild) != [] ==>
              r.reply == StaffList(RolesOf(s.staffRoles, it.guild))
    ensures r.reply.StaffList? ==> c.ListStaff? && r.reply.roles == RolesOf(s.staffRoles, it.guild)
  {
    if !IsHeadStaff(cfg, it.user) then Step(s, [], Denied)
    else
      match c
      case AddStaff(role) =>
        var u := AddStaffRole(s.staffRoles, it.guild, role);
        Step(s.(staffRoles := u.roles), [], if u.changed then StaffRoleAdded else AlreadyStaffRole)
      case RemoveStaff(role) =>
        var u := RemoveStaffRole(s.staffRoles, it.guild, role);
        Step(s.(staffRoles := u.roles), [], if u.changed then StaffRoleRemoved else NotStaffRole)
      case ListStaff =>
        var roles := RolesOf(s.staffRoles, it.guild);
        Step(s, [], if |roles| == 0 then NoStaffRoles else StaffList(roles))
  }

  /** Ban, kick and mute share one tail: check the bot's own permission,
      make the call, record the action if it went through. */
  function Punish(s: State, env: Env, call: Effect, a: Action): (r: Step)
    ensures r.state == s || r.state == s.(actions := s.actions + [a])
    ensures r.state != s <==> env.botMayAct && env.callSucceeds
    ensures r.effects == if env.botMayAct then [call] else []
    ensures r.reply != Denied && r.reply != OwnerOnly && r.reply != UserNotFound && r.reply != MuteTooLong
  {
    if !env.botMayAct then Step(s, [], BotLacksPermission)
    else if env.callSucceeds then Step(s.(actions := RecordAction(s.actions, a)), [call], Done)
    else Step(s, [call], ActionFailed)
  }

  /** `ban`, `kick` and `mute` once the staff gate has passed. */
  function PunishCommand(s: State, it: Interaction, env: Env, c: ModCommand): (r: Step)
    requires it.command == Moderate(c)
    requires c.BanUser? || c.KickUser? || c.MuteUser?
    ensures r.state == s || (r.state == s.(actions := r.state.actions)
                             && |r.state.actions| == |s.actions| + 1
                             && s.actions <= r.state.actions
                             && Records(it, r.state.actions[|s.actions|]))
    ensures r.state != s <==> env.memberFound && env.botMayAct && env.callSucceeds
                              && (c.MuteUser? ==> c.minutes <= MaxMuteMinutes)
    ensures r.reply == UserNotFound <==> !env.memberFound
    ensures r.reply == MuteTooLong <==> env.memberFound && c.MuteUser? && c.minutes > MaxMuteMinutes
    ensures r.reply == Done <==> r.state != s
    ensures r.reply == BotLacksPermission <==>
              env.memberFound && !(c.MuteUser? && c.minutes > MaxMuteMinutes) && !env.botMayAct
    ensures r.reply == ActionFailed <==>
              env.memberFound && !(c.MuteUser? && c.minutes > MaxMuteMinutes) && env.botMayAct && !env.callSucceeds
    ensures env.memberFound && env.botMayAct && c.BanUser? ==>
              r.effects == [BanCall(c.target, ReasonOrDefault(c.reason))]
    ensures env.memberFound && env.botMayAct && c.KickUser? ==>
              r.effects == [KickCall(c.target, ReasonOrDefault(c.reason))]
    ensures env.memberFound && env.botMayAct && c.MuteUser? && c.minutes <= MaxMuteMinutes ==>
              r.effects == [TimeoutCall(c.target, c.minutes * MillisPerMinute)]
    ensures !(env.memberFound && env.botMayAct && (c.MuteUser? ==> c.minutes <= MaxMuteMinutes)) ==>
              r.effects == []
    ensures r.reply != Denied && r.reply != OwnerOnly
  {
    if !env.memberFound then Step(s, [], UserNotFound)
    else
      match c
      case BanUser(t, reason) =>
        Punish(s, env, BanCall(t, ReasonOrDefault(reason)), Action(it.user, Ban, t, None))
      case KickUser(t, reason) =>
        Punish(s, env, KickCall(t, ReasonOrDefault(reason)), Action(it.user, Kick, t, None))
      case MuteUser(t, minutes) =>
        if minutes > MaxMuteMinutes then Step(s, [], MuteTooLong)
        else
          var duration := minutes * MillisPerMinute;
          Punish(s, env, TimeoutCall(t, duration), Action(it.user, Mute, t, Some(duration)))
  }

  /** `unban`: unban, then restore missing channels; no store changes. */
  function UnbanCommand(s: State, env: Env, userId: Id): (r: Step)
    ensures r.state == s
    ensures r.reply != Denied && r.reply != OwnerOnly
    ensures |r.effects| > 0 && r.effects[0] == UnbanCall(userId)
    ensures env.callSucceeds ==>
              r.effects == [UnbanCall(userId)] + RestoreChannels(s.backups, env.liveChannels).effects
    ensures !env.callSucceeds ==> r.effects == [UnbanCall(userId)] && r.reply == ActionFailed
    ensures r.reply == Unbanned <==> env.callSucceeds && RestoreChannels(s.backups, env.liveChannels).completed
  {
    if !env.callSucceeds then Step(s, [UnbanCall(userId)], ActionFailed)
    else
      var rc := RestoreChannels(s.backups, env.liveChannels);
      Step(s, [UnbanCall(userId)] + rc.effects, if rc.completed then Unbanned else ActionFailed)
  }

  /** `restore` once the staff gate has passed: the owner check, then the
      rollback of the staff member's entries, then the channel restore. */
  function RestoreCommand(cfg: Config, s: State, it: Interaction, env: Env, staff: Id): (r: Step)
    ensures r.state == s
    ensures r.reply == OwnerOnly <==> !IsOwner(cfg, it.user)
    ensures !IsOwner(cfg, it.user) ==> r.effects == []
    ensures r.reply == NoActionsFound <==> IsOwner(cfg, it.user) && ActionsBy(s.actions, staff) == []
    ensures IsOwner(cfg, it.user) && ActionsBy(s.actions, staff) != [] ==>
              var rb := Reverted(ActionsBy(s.actions, staff), env.reversals);
              && r.effects == rb.effects + RestoreChannels(s.backups, env.liveChannels).effects
              && (RestoreChannels(s.backups, env.liveChannels).completed ==> r.reply == Restored(rb.restored))
    ensures r.reply != Denied
  {
    if !IsOwner(cfg, it.user) then Step(s, [], OwnerOnly)
    else
      var acts := ActionsBy(s.actions, staff);
      if |acts| == 0 then Step(s, [], NoActionsFound)
      else
        var rb := Reverted(acts, env.reversals);
        var rc := RestoreChannels(s.backups, env.liveChannels);
        Step(s, rb.effects + rc.effects, if rc.completed then Restored(rb.restored) else NoReply)
  }

  /** The moderation commands, behind the staff gate. */
  function Moderation(cfg: Config, s: State, it: Interaction, env: Env, c: ModCommand): (r: Step)
    requires it.command == Moderate(c)
    ensures r.reply == Denied <==> !IsStaff(cfg, s.staffRoles, MemberOf(it))
    ensures !Authorized(cfg, s.staffRoles, it) ==> r.state == s && r.effects == []
    ensures c.RestoreStaff? ==>
              (r.reply == OwnerOnly <==> IsStaff(cfg, s.staffRoles, MemberOf(it)) && !IsOwner(cfg, it.user))
    ensures r.state == s.(actions := r.state.actions, warnings := r.state.warnings)
    ensures s.actions <= r.state.actions && |r.state.actions| <= |s.actions| + 1
    ensures |r.state.actions| == |s.actions| + 1 ==> Records(it, r.state.actions[|s.actions|])
    ensures r.state.warnings != s.warnings ==> c.WarnUser?
    ensures c.WarnUser? && IsStaff(cfg, s.staffRoles, MemberOf(it)) ==>
              r.state.warnings == AddWarning(s.warnings, c.target, it.guild, ReasonOrDefault(c.reason), env.now)
  {
    if !IsStaff(cfg, s.staffRoles, MemberOf(it)) then Step(s, [], Denied)
    else
      match c
      case BanUser(_, _) => PunishCommand(s, it, env, c)
      case KickUser(_, _) => PunishCommand(s, it, env, c)
      case MuteUser(_, _) => PunishCommand(s, it, env, c)
      case UnbanUser(userId) => UnbanCommand(s, env, userId)
      case WarnUser(t, reason) =>
        var w := AddWarning(s.warnings, t, it.guild, ReasonOrDefault(reason), env.now);
        Step(s.(warnings := w), [], Warned(WarningCount(w, t, it.guild)))
      case RestoreStaff(staff) => RestoreCommand(cfg, s, it, env, staff)
  }

  /** The `interactionCreate` handler for one slash command. */
  function Handle(cfg: Config, s: State, it: Interaction, env: Env): (r: Step)
    ensures !Authorized(cfg, s.staffRoles, it) ==> r.state == s && r.effects == []
    ensures it.command.Manage? ==> (r.reply == Denied <==> !IsHeadStaff(cfg, it.user))
    ensures it.command.Moderate? ==> (r.reply == Denied <==> !IsStaff(cfg, s.staffRoles, MemberOf(it)))
    ensures it.command.Moderate? && it.command.modCmd.RestoreStaff? ==>
              (r.reply == OwnerOnly <==> IsStaff(cfg, s.staffRoles, MemberOf(it)) && !IsOwner(cfg, it.user))
    ensures s.actions <= r.state.actions && |r.state.actions| <= |s.actions| + 1
    ensures |r.state.actions| == |s.actions| + 1 ==> Records(it, r.state.actions[|s.actions|])
    ensures r.state.backups == s.backups
    ensures r.state.staffRoles != s.staffRoles ==> it.command.Manage? && IsHeadStaff(cfg, it.user)
    ensures r.state.warnings != s.warnings ==> it.command.Moderate? && it.command.modCmd.WarnUser?
    ensures Consistent(s) ==> Consistent(r.state)
  {
    match it.command
    case Manage(c) => ManageStaff(cfg, s, it, c)
    case Moderate(c) => Moderation(cfg, s, it, env, c)
  }

  /** The `channelDelete` handler: snapshot the channel as it was. */
  function OnChannelDelete(s: State, ch: Channel): (r: State)
    ensures Find(r.backups, ch.id) == Some(Snapshot(ch))
    ensures Ids(s.backups) <= Ids(r.backups)
    ensures r.(backups := s.backups) == s
    ensures Consistent(s) ==> Consistent(r)
  {
    SaveKeepsInvariants(s.backups, ch.id, Snapshot(ch));
    SaveFind(s.backups, ch.id, Snapshot(ch), ch.id);
    SaveGrows(s.backups, ch.id, Snapshot(ch));
    s.(backups := SaveChannelBackup(s.backups, ch))
  }

  /** The `ready` handler: snapshot every channel the bot can see. */
  function OnReady(s: State, channels: seq<Channel>): (r: State)
    ensures forall i :: 0 <= i < |channels| ==> Find(r.backups, channels[i].id).Some?
    ensures forall i :: 0 <= i < |channels| && (forall j :: i < j < |channels| ==> channels[j].id != channels[i].id) ==>
              Find(r.backups, channels[i].id) == Some(Snapshot(channels[i]))
    ensures Ids(s.backups) <= Ids(r.backups)
    ensures r.(backups := s.backups) == s
    ensures Consistent(s) ==> Consistent(r)
  {
    SnapshotFirstKeepsInvariants(s.backups, channels, |channels|);
    SnapshotAllCovers(s.backups, channels);
    SnapshotAllKeepsLast(s.backups, channels);
    SnapshotFirstGrows(s.backups, channels, |channels|);
    s.(backups := SnapshotAll(s.backups, channels))
  }

  /** The empty stores the process starts with satisfy the invariant the
      handlers preserve. */
  lemma InitialConsistent()
    ensures Consistent(Initial)
  {
  }

  /** A mute longer than 28 days is refused before any timeout call and
      records nothing. */
  lemma MuteOverLimitRejected(cfg: Config, s: State, it: Interaction, env: Env)
    requires it.command.Moderate? && it.command.modCmd.MuteUser?
    requires it.command.modCmd.minutes > MaxMuteMinutes
    ensures Handle(cfg, s, it, env).state == s
    ensures Handle(cfg, s, it, env).effects == []
  {
  }

  /** A mute of at most 28 days that the platform carries out records a
      `mute` entry whose duration is the minutes in milliseconds. */
  lemma MuteWithinLimitRecorded(cfg: Config, s: State, it: Interaction, env: Env)
    requires it.command.Moderate? && it.command.modCmd.MuteUser?
    requires it.command.modCmd.minutes <= MaxMuteMinutes
    requires Authorized(cfg, s.staffRoles, it)
    requires env.memberFound && env.botMayAct && env.callSucceeds
    ensures var m := it.command.modCmd;
            var r := Handle(cfg, s, it, env);
            && r.effects == [TimeoutCall(m.target, m.minutes * 60000)]
            && r.state.actions == s.actions + [Action(it.user, Mute, m.target, Some(m.minutes * 60000))]
            && r.reply == Done
  {
  }

  /** `restore` only reads the stores. */
  lemma RestoreLeavesStores(cfg: Config, s: State, it: Interaction, env: Env)
    requires it.command.Moderate? && it.command.modCmd.RestoreStaff?
    ensures Handle(cfg, s, it, env).state == s
  {
  }

  /** With no entries for the staff member, `restore` stops before any
      unban or channel restore. */
  lemma RestoreWithoutEntries(cfg: Config, s: State, it: Interaction, env: Env)
    requires it.command.Moderate? && it.command.modCmd.RestoreStaff?
    requires Authorized(cfg, s.staffRoles, it)
    requires ActionsBy(s.actions, it.command.modCmd.staff) == []
    ensures Handle(cfg, s, it, env) == Step(s, [], NoActionsFound)
  {
  }

  /** An authorized `restore` with entries reports how many bans and mutes
      it reversed, which is at most how many that staff member logged, and
      attempts the reversals before the channel restore. */
  lemma RestoreReport(cfg: Config, s: State, it: Interaction, env: Env)
    requires it.command.Moderate? && it.command.modCmd.RestoreStaff?
    requires Authorized(cfg, s.staffRoles, it) && Consistent(s)
    requires ActionsBy(s.actions, it.command.modCmd.staff) != []
    ensures var acts := ActionsBy(s.actions, it.command.modCmd.staff);
            var r := Handle(cfg, s, it, env);
            && r.reply.Restored?
            && r.reply.count <= CountKind(acts, Ban) + CountKind(acts, Mute)
            && Reverted(acts, env.reversals).effects <= r.effects
  {
    RestoredBound(ActionsBy(s.actions, it.command.modCmd.staff), env.reversals);
  }

  /** A member who is neither whitelisted nor holds a staff role cannot ban:
      the reply is a refusal and no entry is recorded. */
  lemma OutsiderCannotBan(cfg: Config, s: State, it: Interaction, env: Env)
    requires it.command.Moderate? && it.command.modCmd.BanUser?
    requires it.user !in cfg.whitelist
    requires forall x :: x in it.roles ==> x !in RolesOf(s.staffRoles, it.guild)
    ensures Handle(cfg, s, it, env) == Step(s, [], Denied)
  {
  }

  /** `warn` reports the new total, one more than before. */
  lemma WarnCountsUp(cfg: Config, s: State, it: Interaction, env: Env)
    requires it.command.Moderate? && it.command.modCmd.WarnUser?
    requires Authorized(cfg, s.staffRoles, it)
    ensures Handle(cfg, s, it, env).reply
            == Warned(WarningCount(s.warnings, it.command.modCmd.target, it.guild) + 1)
  {
  }
}

=== FILE: decimal.dfy ===
/** Permission bitfields travel through the backup store as decimal text:
    `bitfield.toString()` when a channel is snapshotted and `BigInt(text)`
    when it is restored. Bitfields are unbounded naturals here (JavaScript
    BigInt), so nothing is lost to a fixed width. */
module Decimal {
  import opened Wrappers

  predicate IsDigit(c: char) {
    '0' <= c <= '9'
  }

  predicate AllDigits(s: string) {
    forall i :: 0 <= i < |s| ==> IsDigit(s[i])
  }

  /** The shape `BigInt.prototype.toString()` produces for a non-negative
      value: at least one digit, and no leading zero unless the value is 0. */
  predicate Canonical(s: string) {
    |s| > 0 && AllDigits(s) && (s[0] == '0' ==> |s| == 1)
  }

  function DigitChar(d: nat): (c: char)
    requires d < 10
    ensures IsDigit(c)
    ensures c as int - '0' as int == d
  {
    ('0' as int + d) as char
  }

  function DigitValue(c: char): (d: nat)
    requires IsDigit(c)
    ensures d < 10 && DigitChar(d) == c
  {
    c as int - '0' as int
  }

  /** `n.toString()` for a BigInt `n >= 0`. */
  function ToDecimal(n: nat): (s: string)
    ensures Canonical(s)
    ensures s[0] == '0' <==> n == 0
    decreases n
  {
    if n < 10 then [DigitChar(n)] else ToDecimal(n / 10) + [DigitChar(n % 10)]
  }

  /** `BigInt(s)` on decimal text: a string of digits denotes its value (the
      empty string denotes 0, as in JavaScript); any other character makes
      the conversion throw, which is `None` here. */
  function ParseDecimal(s: string): (r: Option<nat>)
    ensures r.Some? <==> AllDigits(s)
    decreases |s|
  {
    if |s| == 0 then Some(0)
    else
      var last := s[|s| - 1];
      assert s == s[..|s| - 1] + [last];
      match ParseDecimal(s[..|s| - 1])
      case None => None
      case Some(v) => if IsDigit(last) then Some(v * 10 + DigitValue(last)) else None
  }

  /** Decoding what encoding produced gives back the bitfield exactly. */
  lemma {:induction false} ParseToDecimal(n: nat)
    ensures ParseDecimal(ToDecimal(n)) == Some(n)
    decreases n
  {
    var s := ToDecimal(n);
    if n < 10 {
      assert s[..|s| - 1] == [];
    } else {
      assert s[..|s| - 1] == ToDecimal(n / 10);
      ParseToDecimal(n / 10);
    }
  }

  /** A digit string that does not start with '0' denotes a positive value. */
  lemma {:induction false} ParsePositive(s: string)
    requires |s| > 0 && AllDigits(s) && s[0] != '0'
    ensures ParseDecimal(s).Some? && ParseDecimal(s).value >= 1
    decreases |s|
  {
    if |s| > 1 {
      ParsePositive(s[..|s| - 1]);
    }
  }

  /** Encoding what decoding produced gives back canonical text exactly, so
      canonical strings and naturals are in one-to-one correspondence. */
  lemma {:induction false} ToDecimalParse(s: string)
    requires Canonical(s)
    ensures ParseDecimal(s).Some? && ToDecimal(ParseDecimal(s).value) == s
    decreases |s|
  {
    if |s| > 1 {
      var p := s[..|s| - 1];
      var d := DigitValue(s[|s| - 1]);
      ParsePositive(p);
      ToDecimalParse(p);
      var v := ParseDecimal(p).value;
      var n := ParseDecimal(s).value;
      assert n == v * 10 + d;
      assert n / 10 == v && n % 10 == d;
      assert s == p + [s[|s| - 1]];
    }
  }
}

=== FILE: platform.dfy ===
/** Identifiers and the calls the bot makes on the chat platform. The
    platform itself is not modelled: a handler's result lists the calls it
    attempted, in order, and the outcomes of those calls are inputs. */
module Platform {
  import opened Wrappers

  /** Snowflake ids (users, guilds, roles, channels) are strings. */
  type Id = string

  datatype Effect =
    | BanCall(user: Id, reason: string)            // member.ban({ reason })
    | KickCall(user: Id, reason: string)           // member.kick(reason)
    | TimeoutCall(user: Id, durationMs: int)       // member.timeout(duration, ...)
    | ClearTimeoutCall(user: Id)                   // member.timeout(null)
    | UnbanCall(user: Id)                          // guild.members.unban(id)
      /** guild.channels.create({ name, type, parent, position }); `restoredFrom`
          labels the backup being recreated and is not sent to the platform. */
    | CreateChannelCall(restoredFrom: Id, name: string, kind: nat, parent: Option<Id>, position: int)
      /** permissionOverwrites.create(principal, { allow, deny }) on the channel
          created last. */
    | OverwriteCall(principal: Id, allow: nat, deny: nat)
}

=== FILE: roleaudit.dfy ===
/** The role-change diff of the `guildMemberUpdate` handler
    (index.js:204-229): which roles a member gained and lost, and whether
    the update is worth a security-log entry. */
module RoleAudit {
  import opened Wrappers
  import opened Platform

  datatype RoleChange = RoleChange(added: set<Id>, removed: set<Id>)

  /** Roles in the new member and not the old are added, the reverse are
      removed; an entry is logged exactly when the role set changed. */
  function RoleUpdateEntry(before: set<Id>, after: set<Id>): (r: Option<RoleChange>)
    ensures r.Some? <==> before != after
    ensures r.Some? ==> r.value.added !! before && r.value.removed !! after
    ensures r.Some? ==> r.value.added <= after && r.value.removed <= before
    ensures r.Some? ==> (before - r.value.removed) + r.value.added == after
  {
    var added := after - before;
    var removed := before - after;
    if |added| > 0 || |removed| > 0 then
      Some(RoleChange(added, removed))
    else
      assert before <= after && after <= before;
      None
  }
}

=== FILE: seqs.dfy ===
/** Sequence helpers shared by the stores: first-occurrence search,
    duplicate freedom and single-element removal (`Array.prototype.indexOf`
    and `splice(i, 1)`). */
module Seqs {

  predicate NoDuplicates<T(==)>(s: seq<T>) {
    forall i, j :: 0 <= i < j < |s| ==> s[i] != s[j]
  }

  /** `indexOf`: the position of the first occurrence of `x`, or -1. */
  function IndexOf<T(==)>(s: seq<T>, x: T): (i: int)
    ensures -1 <= i < |s|
    ensures i == -1 <==> x !in s
    ensures 0 <= i ==> s[i] == x && x !in s[..i]
    decreases |s|
  {
    if |s| == 0 then -1
    else if s[0] == x then 0
    else
      var j := IndexOf(s[1..], x);
      if j == -1 then -1
      else
        assert s[..j + 1] == [s[0]] + s[1..][..j];
        j + 1
  }

  /** `splice(i, 1)`: drop the element at position `i`, keeping the order of the rest. */
  function RemoveAt<T(==)>(s: seq<T>, i: nat): (r: seq<T>)
    requires i < |s|
    ensures |r| == |s| - 1
    ensures forall k :: 0 <= k < i ==> r[k] == s[k]
    ensures forall k :: i <= k < |r| ==> r[k] == s[k + 1]
    ensures multiset(r) == multiset(s) - multiset{s[i]}
    ensures NoDuplicates(s) ==> NoDuplicates(r) && s[i] !in r
  {
    assert s == s[..i] + [s[i]] + s[i + 1..];
    s[..i] + s[i + 1..]
  }

  /** Appending an element not yet present keeps a sequence duplicate-free. */
  lemma AppendFresh<T>(s: seq<T>, x: T)
    requires NoDuplicates(s) && x !in s
    ensures NoDuplicates(s + [x])
  {
  }

  /** In a duplicate-free sequence every member occurs exactly once. */
  lemma {:induction false} SingleOccurrence<T>(s: seq<T>, x: T)
    requires NoDuplicates(s) && x in s
    ensures multiset(s)[x] == 1
    decreases |s|
  {
    assert s == [s[0]] + s[1..];
    assert NoDuplicates(s[1..]);
    if s[0] == x {
      assert x !in s[1..];
    } else {
      SingleOccurrence(s[1..], x);
    }
  }
}

=== FILE: staff.dfy ===
/** The staff directory (index.js:104-145): who is owner, head staff or
    staff, and the per-guild list of staff roles that `addstaff` and
    `removestaff` maintain. */
module Staff {
  import opened Wrappers
  import opened Seqs
  import opened Platform

  /** The identities read from the environment at start-up: OWNER_ID (absent
      when unset, so nobody is owner), HEAD_STAFF_IDS and STAFF_WHITELIST. */
  datatype Config = Config(owner: Option<Id>, headStaff: seq<Id>, whitelist: seq<Id>)

  /** The parts of a guild member the staff check reads: its user id, its
      guild and the ids in `member.roles.cache`. */
  datatype Member = Member(user: Id, guild: Id, roles: seq<Id>)

  /** `staffRoles`: guild id -> role ids, in insertion order. */
  type StaffRoles = map<Id, seq<Id>>

  /** What `addStaffRole`/`removeStaffRole` leave behind and return. */
  datatype RoleUpdate = RoleUpdate(roles: StaffRoles, changed: bool)

  /** `staffRoles.get(guild) || []` */
  function RolesOf(reg: StaffRoles, guild: Id): seq<Id> {
    if guild in reg then reg[guild] else []
  }

  /** Every guild's list has set semantics. */
  ghost predicate Valid(reg: StaffRoles) {
    forall g :: g in reg ==> NoDuplicates(reg[g])
  }

  predicate IsOwner(cfg: Config, user: Id) {
    cfg.owner == Some(user)
  }

  function IsHeadStaff(cfg: Config, user: Id): (r: bool)
    ensures IsOwner(cfg, user) ==> r
    ensures user in cfg.headStaff ==> r
    ensures r ==> IsOwner(cfg, user) || user in cfg.headStaff
  {
    IsOwner(cfg, user) || user in cfg.headStaff
  }

  /** `roles.some(role => listed.includes(role))` */
  function AnyListed(roles: seq<Id>, listed: seq<Id>): (r: bool)
    ensures r <==> exists i :: 0 <= i < |roles| && roles[i] in listed
    decreases |roles|
  {
    if |roles| == 0 then false
    else if roles[0] in listed then true
    else
      var r := AnyListed(roles[1..], listed);
      assert forall i :: 1 <= i < |roles| ==> roles[i] == roles[1..][i - 1];
      r
  }

  /** Whitelisted users are staff; otherwise a member is staff when one of
      its roles is registered as a staff role of its guild. */
  function IsStaff(cfg: Config, reg: StaffRoles, m: Member): (r: bool)
    ensures r <==> m.user in cfg.whitelist
                   || exists i :: 0 <= i < |m.roles| && m.roles[i] in RolesOf(reg, m.guild)
  {
    if m.user in cfg.whitelist then true else AnyListed(m.roles, RolesOf(reg, m.guild))
  }

  /** `addStaffRole`: append the role unless the guild already lists it;
      report whether it was appended. */
  function AddStaffRole(reg: StaffRoles, guild: Id, role: Id): (r: RoleUpdate)
    ensures r.changed <==> role !in RolesOf(reg, guild)
    ensures role in RolesOf(r.roles, guild)
    ensures r.changed ==> RolesOf(r.roles, guild) == RolesOf(reg, guild) + [role]
    ensures !r.changed ==> r.roles == reg
    ensures r.roles - {guild} == reg - {guild}
    ensures Valid(reg) ==> Valid(r.roles)
  {
    var current := RolesOf(reg, guild);
    if role !in current then
      assert Valid(reg) ==> NoDuplicates(current + [role]);
      RoleUpdate(reg[guild := current + [role]], true)
    else
      RoleUpdate(reg, false)
  }

  /** `removeStaffRole`: splice out the first occurrence of the role if the
      guild lists it; report whether it did. An unknown guild gets no entry. */
  function RemoveStaffRole(reg: StaffRoles, guild: Id, role: Id): (r: RoleUpdate)
    ensures r.changed <==> role in RolesOf(reg, guild)
    ensures !r.changed ==> r.roles == reg
    ensures r.roles - {guild} == reg - {guild}
    ensures r.changed ==> guild in r.roles
                          && multiset(r.roles[guild]) == multiset(RolesOf(reg, guild)) - multiset{role}
    ensures NoDuplicates(RolesOf(reg, guild)) ==> role !in RolesOf(r.roles, guild)
    ensures Valid(reg) ==> Valid(r.roles)
  {
    var current := RolesOf(reg, guild);
    var i := IndexOf(current, role);
    if i > -1 then
      RoleUpdate(reg[guild := RemoveAt(current, i)], true)
    else
      RoleUpdate(reg, false)
  }

  /** Nobody is staff in a guild with no staff roles unless whitelisted. */
  lemma NoRolesNoStaff(cfg: Config, reg: StaffRoles, m: Member)
    requires m.user !in cfg.whitelist && RolesOf(reg, m.guild) == []
    ensures !IsStaff(cfg, reg, m)
  {
  }

  /** Adding a role twice: the first call reports whether it was new, the
      second reports false and changes nothing, and the role is then listed
      exactly once. */
  lemma AddStaffRoleTwice(reg: StaffRoles, guild: Id, role: Id)
    requires NoDuplicates(RolesOf(reg, guild))
    ensures var first := AddStaffRole(reg, guild, role);
            var second := AddStaffRole(first.roles, guild, role);
            && !second.changed
            && second.roles == first.roles
            && multiset(RolesOf(second.roles, guild))[role] == 1
  {
    var first := AddStaffRole(reg, guild, role);
    if first.changed {
      AppendFresh(RolesOf(reg, guild), role);
    }
    SingleOccurrence(RolesOf(first.roles, guild), role);
  }

  /** After `addstaff` registers a role, any member of that guild holding it
      is staff. */
  lemma StaffAfterAdd(cfg: Config, reg: StaffRoles, m: Member, role: Id)
    requires role in m.roles
    ensures IsStaff(cfg, AddStaffRole(reg, m.guild, role).roles, m)
  {
    var i :| 0 <= i < |m.roles| && m.roles[i] == role;
  }

  /** After `removestaff` drops a role, a non-whitelisted member whose only
      staff role it was (any other roles, such as @everyone, are not
      registered) is no longer staff. */
  lemma NotStaffAfterRemove(cfg: Config, reg: StaffRoles, m: Member, role: Id)
    requires Valid(reg)
    requires m.user !in cfg.whitelist
    requires forall x :: x in m.roles && x != role ==> x !in RolesOf(reg, m.guild)
    ensures !IsStaff(cfg, RemoveStaffRole(reg, m.guild, role).roles, m)
  {
    assert NoDuplicates(RolesOf(reg, m.guild));
  }
}

=== FILE: warnings.dfy ===
/** The warning store (index.js:599-610): one append-only list of warnings
    per `${guildId}-${userId}` key. */
module Warnings {
  import opened Seqs
  import opened Decimal
  import opened Platform

  /** `{ reason, date: new Date() }`; the date is an opaque instant. */
  datatype Warning = Warning(reason: string, date: nat)

  type WarningStore = map<string, seq<Warning>>

  /** One call of `addWarning(user, guild, reason)` at instant `date`. */
  datatype WarnCall = WarnCall(user: Id, guild: Id, reason: string, date: nat)

  function Key(guild: Id, user: Id): string {
    guild + "-" + user
  }

  function WarningsOf(store: WarningStore, user: Id, guild: Id): seq<Warning> {
    var k := Key(guild, user);
    if k in store then store[k] else []
  }

  /** `getWarningCount`: a key never warned counts 0. */
  function WarningCount(store: WarningStore, user: Id, guild: Id): (n: nat)
    ensures Key(guild, user) !in store ==> n == 0
    ensures n == |WarningsOf(store, user, guild)|
  {
    var k := Key(guild, user);
    if k in store then |store[k]| else 0
  }

  /** `addWarning`: append one warning to the key's list, creating the list
      on first use; every other key keeps its list. */
  function AddWarning(store: WarningStore, user: Id, guild: Id, reason: string, date: nat): (r: WarningStore)
    ensures WarningCount(r, user, guild) == WarningCount(store, user, guild) + 1
    ensures WarningsOf(store, user, guild) <= WarningsOf(r, user, guild)
    ensures WarningsOf(r, user, guild)[WarningCount(store, user, guild)] == Warning(reason, date)
    ensures r - {Key(guild, user)} == store - {Key(guild, user)}
  {
    var k := Key(guild, user);
    store[k := WarningsOf(store, user, guild) + [Warning(reason, date)]]
  }

  /** In a key whose guild part is a digit string, the first '-' is the separator. */
  lemma KeySplitsAtDash(guild: Id, user: Id)
    requires AllDigits(guild)
    ensures IndexOf(Key(guild, user), '-') == |guild|
  {
    var k := Key(guild, user);
    assert k[|guild|] == '-';
    assert forall j :: 0 <= j < |guild| ==> k[j] == guild[j] && k[j] != '-';
    var i := IndexOf(k, '-');
    assert i >= |guild|;
  }

  /** Guild ids are snowflakes (digit strings), so the key determines both
      ids: distinct (guild, user) pairs never share a warning list. */
  lemma KeyInjective(g1: Id, u1: Id, g2: Id, u2: Id)
    requires AllDigits(g1) && AllDigits(g2)
    ensures Key(g1, u1) == Key(g2, u2) <==> g1 == g2 && u1 == u2
  {
    KeySplitsAtDash(g1, u1);
    KeySplitsAtDash(g2, u2);
    if Key(g1, u1) == Key(g2, u2) {
      var k := Key(g1, u1);
      assert |g1| == |g2|;
      assert g1 == k[..|g1|] == g2;
      assert u1 == k[|g1| + 1..] == u2;
    }
  }

  /** Warning one user leaves every other (guild, user) count unchanged, in
      particular the same user's count in another guild. */
  lemma WarningsIsolated(store: WarningStore, user: Id, guild: Id, reason: string, date: nat, user': Id, guild': Id)
    requires AllDigits(guild) && AllDigits(guild')
    requires guild != guild' || user != user'
    ensures WarningCount(AddWarning(store, user, guild, reason, date), user', guild')
            == WarningCount(store, user', guild')
  {
    KeyInjective(guild, user, guild', user');
  }

  /** Replaying calls of `addWarning` in order. */
  function ApplyWarnings(store: WarningStore, calls: seq<WarnCall>): WarningStore
    decreases |calls|
  {
    if |calls| == 0 then store
    else
      var c := calls[|calls| - 1];
      AddWarning(ApplyWarnings(store, calls[..|calls| - 1]), c.user, c.guild, c.reason, c.date)
  }

  /** How many of the calls warned `user` in `guild`. */
  function CallsFor(calls: seq<WarnCall>, user: Id, guild: Id): nat
    decreases |calls|
  {
    if |calls| == 0 then 0
    else
      var c := calls[|calls| - 1];
      CallsFor(calls[..|calls| - 1], user, guild) + (if c.user == user && c.guild == guild then 1 else 0)
  }

  /** From an empty store, a key's count is the number of `addWarning`
      calls made for exactly that guild and user. */
  lemma {:induction false} CountMatchesCalls(calls: seq<WarnCall>, user: Id, guild: Id)
    requires AllDigits(guild)
    requires forall i :: 0 <= i < |calls| ==> AllDigits(calls[i].guild)
    ensures WarningCount(ApplyWarnings(map[], calls), user, guild) == CallsFor(calls, user, guild)
    decreases |calls|
  {
    if |calls| > 0 {
      var prefix := calls[..|calls| - 1];
      var c := calls[|calls| - 1];
      assert forall i :: 0 <= i < |prefix| ==> prefix[i] == calls[i];
      CountMatchesCalls(prefix, user, guild);
      if c.user != user || c.guild != guild {
        WarningsIsolated(ApplyWarnings(map[], prefix), c.user, c.guild, c.reason, c.date, user, guild);
      }
    }
  }
}

=== FILE: wrappers.dfy ===
/** Optional values: JavaScript's `undefined`/`null` results (a missing map
    entry, an unset configuration variable, a channel without a parent). */
module Wrappers {

  datatype Option<+T> = None | Some(value: T)
}
